=== FILE: README.md ===
# vk-shader-stash: a Dafny model of the shader stash core

`shs::ShaderStash` keeps a map from a shader's bare filename to the hash of
its source text and the Vulkan shader module compiled from it. A background
worker rescans the shader folder: each file that passed the filter is hashed,
compiled when its name is new or its hash changed, and written back into the
map. `get` reads the map. `setHotReload` starts or stops the worker.

This project models that core as pure functions over immutable values:

- `ShaderKinds`: the six-entry `knownExtensions` table, `inferShaderKindFromFileExtension`,
  and the `std::filesystem::path::extension` rule that produces the lookup key.
- `ShaderCache`: the map (`Stash`), its entries and `get`.
- `Scanner`: one directory entry's handling inside `watchFiles` (`Step`), one
  pass as a fold of `Step` over file records (`ScanPass`), and the same pass as
  the loop the source runs (`RunScan`).
- `ScanProperties`: what a whole pass does to the stash.
- `Watcher`: the `while` loop of `watchFiles`, one pass after another, each
  with the baseline the previous one left.
- `HotReload`: `setHotReload`/`getHotReload` as a two-state machine (worker
  `Idle` or `Active`).

`std::hash<std::string>`, shaderc's `CompileGlslToSpv` and
`vk::raii::Device::createShaderModule` are not visible here. They are the
three fields of `Scanner.Collaborators`: total functions the caller supplies,
about which nothing is assumed. The hash is a 64-bit `size_t`. Every compile
creates a new `vk::raii::ShaderModule` and a new `shared_ptr` to it, so a
module handle in the model is the device module paired with a serial number
that the stash allocates from a counter (`Stash.nextSerial`). Two compiles
never yield the same handle, even from the same SPIR-V. Directory
traversal is replaced by a sequence of `FileRecord`s in iteration order. A
record holds the entry's directory, bare filename, `is_regular_file()`,
`exists()`, `last_write_time()` and the text `readFileContents` returns. The
stop token is modelled by the length of the list of passes. Each pass's
clock readings are inputs.

## Model

| member | source | states |
|---|---|---|
| `ShaderKinds.InferKind` | include/shader-stash.hpp:61-66 | `.vert`, `.frag`, `.geom`, `.tesc`, `.tese`, `.comp` map to vertex, fragment, geometry, tessellation-control, tessellation-evaluation and compute, each in both directions. Every other extension, and only those, gives "infer from source". |
| `ShaderKinds.KnownExtensionsTable` | include/shader-stash.hpp:144-148 | The table has exactly the six keys `.vert`, `.frag`, `.geom`, `.tesc`, `.tese`, `.comp`, and none of them maps to "infer from source". |
| `ShaderKinds.TableKeyShape` | include/shader-stash.hpp:144-148 | Every key of the table is a period followed by four lower-case letters. |
| `ShaderKinds.Extension` | include/shader-stash.hpp:101 | The extension is the suffix that starts at the last period. It contains no other period. It is empty exactly when the name has no period, is `..`, or has only a leading period. |
| `ShaderKinds.ExtensionAt` | include/shader-stash.hpp:101 | When no later period follows a non-leading period, the extension starts at that period. |
| `ShaderKinds.NoExtension` | include/shader-stash.hpp:101 | A name whose only period, if any, is the first character has no extension. |
| `ShaderKinds.KindOfFile` | include/shader-stash.hpp:101 | The stage a file is compiled with is looked up by the extension of its bare filename. |
| `ShaderKinds.KindFromSuffix` | include/shader-stash.hpp:101 | A file gets a stage from the table exactly when its name is longer than five characters and ends in one of the six extensions. It then gets that extension's stage. |
| `ShaderKinds.FragmentExample` | include/shader-stash.hpp:144-148 | `a.frag` is compiled as a fragment shader. |
| `ShaderKinds.DottedNameExample` | include/shader-stash.hpp:101 | `sky.box.vert` is a vertex shader: only the last extension counts. |
| `ShaderKinds.UnknownStageExample` | include/shader-stash.hpp:65 | `b.xyz` leaves the stage to the compiler. |
| `ShaderKinds.BackupFileExample` | include/shader-stash.hpp:101 | `a.vert.bak` is not a vertex shader. |
| `ShaderKinds.UpperCaseExample` | include/shader-stash.hpp:62-65 | The lookup is case-sensitive: `a.VERT` is not a vertex shader. |
| `ShaderKinds.HiddenFileExample` | include/shader-stash.hpp:101 | A file named just `.vert` has no extension, so its stage is inferred. |
| `ShaderCache.Get` | include/shader-stash.hpp:27-33 | `get` returns no handle exactly when the filename is absent. Otherwise it returns the stored handle. |
| `Scanner.Eligible` | include/shader-stash.hpp:88 | A file passes the filter when it is a regular file, is not older than the baseline, and is reported present. |
| `Scanner.Build` | include/shader-stash.hpp:92-113 | A compile pairs the hash of the contents with a new handle to the module the device builds from the compiler's output. The compiler gets the contents, the stage from the extension, and the bare filename. |
| `Scanner.Step` | include/shader-stash.hpp:87-121 | A filtered-out file leaves the stash and logs a skip. Same name and same hash: no compile, stash unchanged. Same name with a new hash: `Updated`. New name: `Added`. A compile stores the hash and a newly allocated handle under the bare filename, and advances the handle counter by one. No other filename's presence or entry changes. If every held handle is older than the counter, that stays so. |
| `Scanner.ScanPass` | include/shader-stash.hpp:87-122 | One pass logs one outcome per file, never removes a filename, and never moves the handle counter back. If every held handle is older than the counter, that stays so. |
| `Scanner.RunScan` | include/shader-stash.hpp:87-122 | The loop the source runs gives the same stash and log as the fold `ScanPass`. |
| `Scanner.LastEligible` | include/shader-stash.hpp:88-90 | Finds the file that passes the filter under a given name with no later such file. It reports none exactly when no file in the pass passes the filter under that name. |
| `ScanProperties.StepSize` | include/shader-stash.hpp:110-120 | Replacing keeps the map's size. Inserting grows it by exactly one. Each compile allocates exactly one handle. |
| `ScanProperties.StepRecompiles` | include/shader-stash.hpp:110-117 | A stashed name with a different hash is recompiled. Its entry is overwritten in place with a newly allocated handle. |
| `ScanProperties.PassLog` | include/shader-stash.hpp:88-120 | A pass logs a skip exactly for files failing the regular, age or existence test. Every log line about a compile names that file's own path. |
| `ScanProperties.PassSize` | include/shader-stash.hpp:110-120 | After a pass the map has grown by the number of `Added` log lines, and the handle counter by the number of compiles. |
| `ScanProperties.ScanOutcome` | include/shader-stash.hpp:87-122 | After a pass, the keys are the old keys plus the names of files that passed the filter. Names no such file carries keep their entries. A name such files share holds the hash of the last one: later files win a shared slot. |
| `ScanProperties.LastEligibleOfDistinct` | include/shader-stash.hpp:90 | When no two files that pass the filter share a name, the last file under a name is the only one. |
| `ScanProperties.StableScan` | include/shader-stash.hpp:95-99 | When every file that passes the filter is already stashed with its current hash, the pass compiles nothing and changes nothing. |
| `ScanProperties.RescanUnchangedIsNoOp` | include/shader-stash.hpp:88-99 | Rescanning the same files with a baseline no earlier than before does zero compiles and leaves the stash unchanged, provided the names are distinct. |
| `ScanProperties.OlderThanBaselineIsNoOp` | include/shader-stash.hpp:88 | When every file is older than the baseline, every file is skipped and the stash is unchanged. |
| `ScanProperties.CollidingNamesRecompileWhenBothPass` | include/shader-stash.hpp:90-120 | Two files with the same bare name and different hashes share one slot. After a pass in which both pass the filter, the slot holds the newest handle, built from the later-listed file. A later pass in which both files still pass the filter logs two `Updated` lines, allocates two handles, and leaves the slot holding a new handle built from the later-listed file. |
| `ScanProperties.CollidingLaterPass` | include/shader-stash.hpp:90-120 | Whenever the slot holds the later file's hash, a pass in which both files pass the filter recompiles both and ends with the later file's hash in the slot again, under a new handle. |
| `ScanProperties.GetAfterCompile` | include/shader-stash.hpp:101-120 | After a file is compiled, `get` on its bare name returns a new handle to the module built from that file's contents, with the stage from its extension. When every held handle is older than the counter, the new handle differs from every handle the stash held before. |
| `ScanProperties.GetAfterScan` | include/shader-stash.hpp:27-33 | After a pass, `get` returns no handle exactly for names that were not stashed before and that no file passing the filter carries. |
| `Watcher.Watch` | include/shader-stash.hpp:76-127 | The worker loop keeps one log per pass, with one line per file, and never removes a filename. The next baseline is the last pass's clock reading, or the first baseline before any pass. |
| `Watcher.WatchAsWritten` | include/shader-stash.hpp:77-124 | As written, the first pass compares with the clock's epoch, and each later baseline is the clock read after the previous pass. |
| `Watcher.WatchCorrected` | include/shader-stash.hpp:77-124 | Corrected, the first pass compares with the clock's minimum, and each later baseline is the clock read before the previous pass. |
| `Watcher.WatchLog` | include/shader-stash.hpp:84-124 | Pass `k`'s log is one scan of its files, run on the stash the earlier passes left, against the baseline they left. |
| `Watcher.LogKept` | include/shader-stash.hpp:84-124 | Later passes only append to the logs: pass `k`'s log stays what it was when that pass ended. |
| `Watcher.ClockOrder` | include/shader-stash.hpp:124 | Under clock readings that move forward, every reading of a later pass is no earlier than the first pass's start. |
| `Watcher.UnchangedDirectoryCompilesNothing` | include/shader-stash.hpp:84-124 | When the clock moves forward and a pass sees exactly the files the previous pass saw, it compiles nothing and leaves the stash as it was. This needs two things: no two files that pass the filter share a name, and the baseline does not move backward across the first pass. |
| `Watcher.LostEditAsWritten` | include/shader-stash.hpp:88-124 | The clock is read after each pass. Suppose some pass leaves a filename's entry with a hash other than that of a file's new text, and the file was rewritten before that pass ended. If every later pass lists that file unchanged under the name, every later pass keeps exactly that entry, with the stale hash. |
| `Watcher.EditStaysLost` | include/shader-stash.hpp:88-124 | The induction behind the lost edit: after each further pass, the entry under the edited name is still the one that pass `k` left. |
| `Watcher.LaterPassKeepsEdit` | include/shader-stash.hpp:88-124 | One pass after the edit's pass leaves the entry under the edited name as it found it. |
| `Watcher.SkippedNameKept` | include/shader-stash.hpp:88 | A pass in which every file under a name is older than the baseline leaves that name's entry unchanged. |
| `Watcher.FinishOrder` | include/shader-stash.hpp:124 | Under clock readings that move forward, a later pass finishes no earlier than an earlier one. |
| `Watcher.UnwrittenFilesSkippedAsWritten` | include/shader-stash.hpp:88-124 | With the clock read after each pass, a pass in which no file was written since the previous pass ended logs only skips and leaves the stash as that pass left it. Colliding files therefore are not recompiled on every pass. |
| `Watcher.LastWrittenCollidingFileWinsAsWritten` | include/shader-stash.hpp:88-124 | With the clock read after each pass, when the earlier-listed of two same-named files was rewritten since the previous pass ended and the later-listed one was not, the later one is skipped and the slot ends with the rewritten file's hash. |
| `Watcher.LostEditExample` | include/shader-stash.hpp:88-124 | One instance, from an empty stash: the first pass stashes a file that is rewritten while the pass runs. The second pass logs a skip, and the stash keeps the old hash. |
| `Watcher.NoLostEditCorrected` | include/shader-stash.hpp:88 | If the clock is read before each pass, any file written since the previous pass began has its current hash in the stash after the next pass. |
| `Watcher.ExistingShadersNeverLoadedAsWritten` | include/shader-stash.hpp:77-88 | As written, a file last written before both the epoch and the first pass's start is skipped by every pass. |
| `Watcher.NeverLoadedExample` | include/shader-stash.hpp:77-88 | With both passes before the epoch, a shader written earlier still is skipped twice, and `get` returns no handle for it. |
| `Watcher.FirstPassInspectsEverythingCorrected` | include/shader-stash.hpp:88 | With the first baseline at the clock's minimum, the first pass skips a file exactly when it is not a regular file or is gone. With distinct names, each file it keeps is stashed with the hash of its contents. |
| `ScanProperties.StepCoherent` | include/shader-stash.hpp:92-120 | If every entry's hash and module come from one text compiled under the entry's filename and stage, that stays so after one directory entry is handled. |
| `ScanProperties.PassCoherent` | include/shader-stash.hpp:87-122 | A whole pass keeps every entry's hash and module coming from one text. |
| `Watcher.WatchCoherent` | include/shader-stash.hpp:84-127 | The worker loop keeps every entry's hash and module coming from one text, under either baseline rule. |
| `Watcher.GetAfterWatch` | include/shader-stash.hpp:27-33 | After any run from an empty stash, a handle `get` returns is to the module the device built from some text compiled under that filename and its stage, and the stash pairs it with that text's hash. |
| `HotReload.GetHotReload` | include/shader-stash.hpp:41 | `getHotReload` returns the stored flag. |
| `HotReload.SetHotReload` | include/shader-stash.hpp:42-56 | Afterwards `getHotReload` returns the value set, and the flag agrees with whether a worker runs. Setting the current running state has no effect on the worker. Idle to Active spawns one worker. Active to Idle requests a stop, then joins. |
| `HotReload.SetHotReloadIdempotent` | include/shader-stash.hpp:42-46 | Setting the same value twice: the second call does nothing. |
| `HotReload.SetHotReloadAll` | include/shader-stash.hpp:41-56 | After a sequence of calls, `getHotReload` returns the last value set. |
| `HotReload.OneWorkerAtATime` | include/shader-stash.hpp:42-56 | From an idle stash, the effects of any sequence of calls follow the cycle spawn, request stop, join. No second worker starts while one lives, and no call returns between a stop and its join. |
| `HotReload.FreshStashLifeCycle` | include/shader-stash.hpp:41-56 | From a newly constructed stash, the effects of any calls follow that cycle. The flag `getHotReload` returns then says whether a worker runs: it is on exactly when the last effect is a spawn. |

## Findings

| source | as written | input that shows it | evidently intended | confidence | as-written member | corrected member |
|---|---|---|---|---|---|---|
| include/shader-stash.hpp:124 | The next baseline is `file_clock::now()`, read after the pass has finished. | Pass 1 runs from 10 to 20 and reads `a.frag` (mtime 5). The file is then rewritten at 15. Pass 2 uses baseline 20, so it skips the file (15 < 20), and the stash keeps the old hash for good. | Reading the clock when the pass completes is a deliberate policy. Reading it when the pass starts re-inspects files touched during a pass, and in exchange no edit is lost. | medium, not executed | `Watcher.LostEditAsWritten` | `Watcher.NoLostEditCorrected` |
| include/shader-stash.hpp:77 | The first baseline is a default-constructed `file_clock` time point, which is the clock's epoch. The C++ standard leaves that epoch to the library. libstdc++ puts it at the start of 2174. | On libstdc++ every file time is before the epoch (negative here). Take `a.frag` at -30 and passes from -20 to -10 and from -5 to -1. Both passes skip it, and `get` returns no handle. A shader that exists when hot reload starts is loaded only after someone edits it. | Start from `file_time_type::min()`, so the first pass inspects every file. | medium (depends on the library's epoch), not executed | `Watcher.ExistingShadersNeverLoadedAsWritten` | `Watcher.FirstPassInspectsEverythingCorrected` |

`Watcher.Watch` takes the baseline rule and the first baseline as
parameters. `WatchAsWritten` starts at the epoch and reads the clock after
each pass, as the source does. `WatchCorrected` starts at the clock's minimum
and reads the clock before each pass. The lost-edit trace assumes a library
whose epoch predates the files; on libstdc++ the file would not have been
stashed in the first place (second finding).

## Left out

- Threads: the `std::jthread`, its stop token, and the 1-second interruptible wait (include/shader-stash.hpp:49, 126). `HotReload` keeps only whether a worker exists; `Watcher` treats the stop token as the end of the pass list.
- Locking: the mutex at include/shader-stash.hpp:81-82 is local to the worker and guards nothing. `get` reads the map while the worker may write it, and no lock orders the two. The model is sequential and does not describe that race.
- Scan interval: `setScanInterval` stores the value and `getScanInterval` returns it (include/shader-stash.hpp:35-39), but the worker never reads it. It always waits a fixed one second between passes (include/shader-stash.hpp:126). The model follows the code and has no waiting at all.
- Directory traversal and file reading (`recursive_directory_iterator`, `readFileContents`, `last_write_time`): this is I/O. It is replaced by the records each pass receives. `present` stands for the answer of `exists()`, which libstdc++ gives from the file type it cached while iterating.
- Exceptions: the worker catches nothing, so each of the following ends the program through `std::terminate`. The model has no error path for any of them: every collaborator is total, and a vanished entry is a plain skip.
  - `last_write_time()` throws `filesystem_error` for an entry that vanished after the iterator listed it. This happens at include/shader-stash.hpp:88, before `exists()` is asked.
  - Building the iterator on a missing folder throws at include/shader-stash.hpp:85.
  - Advancing the iterator in the range-`for` at include/shader-stash.hpp:87 throws `filesystem_error` when a subdirectory is removed or cannot be opened while the pass is under way.
  - `createShaderModule` throws at include/shader-stash.hpp:110 when the device rejects the code, for example after a failed compile.
- Compile results: the source does not check the compilation result (include/shader-stash.hpp:103-110). Whatever the compiler returns is handed to `createShaderModule`. The model stores the module that call yields, so it covers only the calls that return.
- Log text (include/shader-stash.hpp:117, 120): only which line is printed and the path it names (the `Updated`/`Added` log entries) are kept.
- `shared_ptr` lifetime: a handle is its allocation serial plus the device module. A consumer still holding an old handle after its entry was replaced is not represented.
- The full path as cache key: the source keys by bare filename, and the model follows it. The cost: files in different subfolders with the same name share one slot, and `get` may return either one's module. Within one pass the later-listed file that passes the filter wins (`ScanProperties.CollidingNamesRecompileWhenBothPass`). Across passes the slot holds whichever was written since the previous pass ended (`Watcher.LastWrittenCollidingFileWinsAsWritten`), and untouched files are not recompiled (`Watcher.UnwrittenFilesSkippedAsWritten`).
- Hash collisions: `ScanProperties.ScanOutcome` promises only the stored hash of the last file under a name, not its module. After an unchanged-hash skip, the module may come from earlier text with the same hash, as the source allows. `Watcher.WatchCoherent` gives what does hold: each entry's hash and module come from one common text.

=== FILE: hot_reload.dfy ===
/** The `setHotReload` / `getHotReload` pair: a flag, and a worker thread
    that exists or not. The thread's work (`watchFiles`) is modelled in
    module Watcher; here only its start, stop request and join matter. */
module HotReload {

  /** `Active` when the worker's thread id differs from the default id. */
  datatype Worker = Idle | Active

  datatype Controller = Controller(shouldHotReload: bool, worker: Worker)

  /** What a call does to the worker thread: start a new one, raise its stop
      token, wait for it to exit. */
  datatype Effect = Spawn | RequestStop | Join

  datatype Transition = Transition(controller: Controller, effects: seq<Effect>)

  /** A freshly constructed stash: hot reload off, no thread. */
  const Initial: Controller := Controller(false, Idle)

  predicate Running(c: Controller)
  {
    c.worker == Active
  }

  /** The flag agrees with whether a worker runs. */
  predicate Consistent(c: Controller)
  {
    c.shouldHotReload == Running(c)
  }

  /** `getHotReload`: the stored flag, not a query of the worker. */
  function GetHotReload(c: Controller): bool
  {
    c.shouldHotReload
  }

  /** Store the flag, then start or stop the worker only when the flag
      differs from whether one runs. Stopping waits for the worker to exit. */
  function SetHotReload(c: Controller, v: bool): (r: Transition)
    ensures GetHotReload(r.controller) == v
    ensures Consistent(r.controller)
    ensures v == Running(c) ==> r.controller.worker == c.worker && r.effects == []
    ensures v && !Running(c) ==> Running(r.controller) && r.effects == [Spawn]
    ensures !v && Running(c) ==> !Running(r.controller) && r.effects == [RequestStop, Join]
  {
    var c' := c.(shouldHotReload := v);
    if v == Running(c) then Transition(c', [])
    else if v then Transition(c'.(worker := Active), [Spawn])
    else Transition(c'.(worker := Idle), [RequestStop, Join])
  }

  /** Setting the flag to the value it already has is a no-op. */
  lemma SetHotReloadIdempotent(c: Controller, v: bool)
    ensures var first := SetHotReload(c, v);
            SetHotReload(first.controller, v) == Transition(first.controller, [])
  {
  }

  /** A sequence of `setHotReload` calls, with the effects of all of them. */
  function SetHotReloadAll(c: Controller, vs: seq<bool>): (r: Transition)
    ensures vs != [] ==> GetHotReload(r.controller) == vs[|vs| - 1]
    decreases |vs|
  {
    if vs == [] then Transition(c, [])
    else
      var prev := SetHotReloadAll(c, vs[..|vs| - 1]);
      var last := SetHotReload(prev.controller, vs[|vs| - 1]);
      Transition(last.controller, prev.effects + last.effects)
  }

  /** The only order in which effects can happen from an idle stash:
      spawn, request stop, join, spawn, ... */
  function LifeCycle(i: nat): Effect
  {
    if i % 3 == 0 then Spawn else if i % 3 == 1 then RequestStop else Join
  }

  /** From an idle stash, whatever the calls, the effects follow the cycle:
      a worker is never started while another lives, never stopped unless
      one lives, and every stop is joined before the call returns. A worker
      runs afterwards exactly when the cycle stopped right after a spawn. */
  lemma {:induction false} OneWorkerAtATime(c: Controller, vs: seq<bool>)
    requires c.worker == Idle
    ensures var r := SetHotReloadAll(c, vs);
            && (forall i :: 0 <= i < |r.effects| ==> r.effects[i] == LifeCycle(i))
            && |r.effects| % 3 != 2
            && (Running(r.controller) <==> |r.effects| % 3 == 1)
    decreases |vs|
  {
    if vs != [] {
      var prev := SetHotReloadAll(c, vs[..|vs| - 1]);
      OneWorkerAtATime(c, vs[..|vs| - 1]);
      var last := SetHotReload(prev.controller, vs[|vs| - 1]);
      var n := |prev.effects|;
      var effects := prev.effects + last.effects;
      forall i | 0 <= i < |effects|
        ensures effects[i] == LifeCycle(i)
      {
        if i >= n {
          if Running(prev.controller) {
            assert (n + 1) % 3 == 2 && (n + 2) % 3 == 0;
          }
        }
      }
      if Running(prev.controller) && last.effects != [] {
        assert (n + 2) % 3 == 0;
      }
      if !Running(prev.controller) && last.effects != [] {
        assert (n + 1) % 3 == 1;
      }
    }
  }

  /** From a freshly constructed stash, the flag `getHotReload` reports is
      whether a worker runs, after any sequence of calls, and it is on
      exactly when the effects so far end with a spawn that no stop has
      followed. */
  lemma FreshStashLifeCycle(vs: seq<bool>)
    ensures var r := SetHotReloadAll(Initial, vs);
            && (forall i :: 0 <= i < |r.effects| ==> r.effects[i] == LifeCycle(i))
            && Consistent(r.controller)
            && (GetHotReload(r.controller) <==> |r.effects| % 3 == 1)
  {
    OneWorkerAtATime(Initial, vs);
    if vs != [] {
      var prev := SetHotReloadAll(Initial, vs[..|vs| - 1]);
      assert SetHotReloadAll(Initial, vs).controller == SetHotReload(prev.controller, vs[|vs| - 1]).controller;
    }
  }
}

=== FILE: optional.dfy ===
/** The absent-or-present value used where the source returns a null pointer
    or a `find` that may hit `end()`. */
module Optional {

  datatype Option<+T> = None | Some(value: T)
}

=== FILE: scan_properties.dfy ===
/** What a whole scan pass does to the stash, stated against the files it
    was given rather than against the order of its steps. */
module ScanProperties {
  import opened Optional
  import opened ShaderKinds
  import opened ShaderCache
  import opened Scanner

  /** Replacing keeps the map's size and inserting grows it by exactly one,
      so a name is never stored twice; each compile allocates one handle. */
  lemma StepSize(env: Collaborators, stash: Stash, baseline: FileTime, f: FileRecord)
    ensures var r := Step(env, stash, baseline, f);
            |r.stash.entries| == |stash.entries| + (if r.action.Added? then 1 else 0)
    ensures var r := Step(env, stash, baseline, f);
            r.stash.nextSerial == stash.nextSerial + (if r.action.Compiled() then 1 else 0)
  {
    var r := Step(env, stash, baseline, f);
    if r.action.Added? {
      assert f.name !in stash.entries;
      assert r.stash.entries.Keys == stash.entries.Keys + {f.name};
    } else {
      assert r.action.Updated? ==> f.name in stash.entries;
      assert r.stash.entries.Keys == stash.entries.Keys;
    }
  }

  /** A pass logs `Skipped` for exactly the files the filter rejects, and
      names each compiled file by its own path. */
  lemma {:induction false} PassLog(env: Collaborators, stash: Stash, baseline: FileTime, files: seq<FileRecord>)
    ensures forall i :: 0 <= i < |files| ==>
              (ScanPass(env, stash, baseline, files).actions[i] == Skipped <==> !Eligible(files[i], baseline))
    ensures forall i :: 0 <= i < |files| && ScanPass(env, stash, baseline, files).actions[i].Compiled() ==>
              ScanPass(env, stash, baseline, files).actions[i].path == PathOf(files[i])
    decreases |files|
  {
    if files != [] {
      var init, last := files[..|files| - 1], files[|files| - 1];
      PassLog(env, stash, baseline, init);
      var prev := ScanPass(env, stash, baseline, init);
      var step := Step(env, prev.stash, baseline, last);
      var actions := prev.actions + [step.action];
      assert ScanPass(env, stash, baseline, files).actions == actions;
      forall i | 0 <= i < |files|
        ensures (actions[i] == Skipped <==> !Eligible(files[i], baseline))
        ensures actions[i].Compiled() ==> actions[i].path == PathOf(files[i])
      {
        if i < |init| {
          assert actions[i] == prev.actions[i] && files[i] == init[i];
        }
      }
    }
  }

  /** The stash grows by one entry per `Added` in the log of a pass and by
      nothing else, and allocates one handle per compile in the log. */
  lemma {:induction false} PassSize(env: Collaborators, stash: Stash, baseline: FileTime, files: seq<FileRecord>)
    ensures |ScanPass(env, stash, baseline, files).stash.entries| ==
              |stash.entries| + AddedCount(ScanPass(env, stash, baseline, files).actions)
    ensures ScanPass(env, stash, baseline, files).stash.nextSerial ==
              stash.nextSerial + CompileCount(ScanPass(env, stash, baseline, files).actions)
    decreases |files|
  {
    if files != [] {
      var init, last := files[..|files| - 1], files[|files| - 1];
      PassSize(env, stash, baseline, init);
      var prev := ScanPass(env, stash, baseline, init);
      var step := Step(env, prev.stash, baseline, last);
      var actions := prev.actions + [step.action];
      assert ScanPass(env, stash, baseline, files) == ScanResult(step.stash, actions);
      assert actions[..|actions| - 1] == prev.actions;
      StepSize(env, prev.stash, baseline, last);
    }
  }

  /** After a pass, the stash holds the old filenames plus the filenames of
      every file that passed the filter; a filename no such file carries
      keeps its old entry; and a filename some file carries holds the hash
      of the LAST such file's contents, so later files win a shared name. */
  lemma ScanOutcome(env: Collaborators, stash: Stash, baseline: FileTime, files: seq<FileRecord>)
    ensures var r := ScanPass(env, stash, baseline, files);
            && (forall n :: n in r.stash.entries <==> n in stash.entries || LastEligible(files, baseline, n).Some?)
            && (forall n :: n in stash.entries && LastEligible(files, baseline, n).None? ==>
                  r.stash.entries[n] == stash.entries[n])
            && (forall n :: LastEligible(files, baseline, n).Some? ==>
                  n in r.stash.entries && r.stash.entries[n].hash == env.hash(LastEligible(files, baseline, n).value.contents))
  {
    ScanKeys(env, stash, baseline, files);
    ScanKeepsUntouched(env, stash, baseline, files);
    ScanLastHash(env, stash, baseline, files);
  }

  /** `LastEligible` on a longer list: the new last file, if it passes the
      filter under the name, and otherwise the answer for the shorter list. */
  lemma LastEligibleSnoc(files: seq<FileRecord>, baseline: FileTime, n: string)
    requires files != []
    ensures LastEligible(files, baseline, n) ==
              var last := files[|files| - 1];
              if Eligible(last, baseline) && last.name == n then Some(last) else LastEligible(files[..|files| - 1], baseline, n)
  {
  }

  /** The keys after a pass: the old ones and the names of files that passed. */
  lemma {:induction false} ScanKeys(env: Collaborators, stash: Stash, baseline: FileTime, files: seq<FileRecord>)
    ensures forall n :: n in ScanPass(env, stash, baseline, files).stash.entries <==>
              n in stash.entries || LastEligible(files, baseline, n).Some?
    decreases |files|
  {
    if files != [] {
      var init, last := files[..|files| - 1], files[|files| - 1];
      ScanKeys(env, stash, baseline, init);
      var prev := ScanPass(env, stash, baseline, init);
      assert ScanPass(env, stash, baseline, files).stash == Step(env, prev.stash, baseline, last).stash;
      forall n
        ensures n in ScanPass(env, stash, baseline, files).stash.entries <==>
                  n in stash.entries || LastEligible(files, baseline, n).Some?
      {
        LastEligibleSnoc(files, baseline, n);
      }
    }
  }

  /** A name no file that passed carries keeps its entry. */
  lemma {:induction false} ScanKeepsUntouched(env: Collaborators, stash: Stash, baseline: FileTime, files: seq<FileRecord>)
    ensures forall n :: n in stash.entries && LastEligible(files, baseline, n).None? ==>
              n in ScanPass(env, stash, baseline, files).stash.entries &&
              ScanPass(env, stash, baseline, files).stash.entries[n] == stash.entries[n]
    decreases |files|
  {
    if files != [] {
      var init, last := files[..|files| - 1], files[|files| - 1];
      ScanKeepsUntouched(env, stash, baseline, init);
      var prev := ScanPass(env, stash, baseline, init);
      assert ScanPass(env, stash, baseline, files).stash == Step(env, prev.stash, baseline, last).stash;
      forall n | n in stash.entries && LastEligible(files, baseline, n).None?
        ensures n in ScanPass(env, stash, baseline, files).stash.entries &&
                ScanPass(env, stash, baseline, files).stash.entries[n] == stash.entries[n]
      {
        LastEligibleSnoc(files, baseline, n);
      }
    }
  }

  /** A name some file that passed carries holds the last such file's hash. */
  lemma {:induction false} ScanLastHash(env: Collaborators, stash: Stash, baseline: FileTime, files: seq<FileRecord>)
    ensures forall n :: LastEligible(files, baseline, n).Some? ==>
              n in ScanPass(env, stash, baseline, files).stash.entries &&
              ScanPass(env, stash, baseline, files).stash.entries[n].hash == env.hash(LastEligible(files, baseline, n).value.contents)
    decreases |files|
  {
    if files != [] {
      var init, last := files[..|files| - 1], files[|files| - 1];
      ScanLastHash(env, stash, baseline, init);
      var prev := ScanPass(env, stash, baseline, init);
      assert ScanPass(env, stash, baseline, files).stash == Step(env, prev.stash, baseline, last).stash;
      forall n | LastEligible(files, baseline, n).Some?
        ensures n in ScanPass(env, stash, baseline, files).stash.entries &&
                ScanPass(env, stash, baseline, files).stash.entries[n].hash == env.hash(LastEligible(files, baseline, n).value.contents)
      {
        LastEligibleSnoc(files, baseline, n);
      }
    }
  }

  /** With distinct filenames, the last file carrying a name is the only one. */
  lemma {:induction false} LastEligibleOfDistinct(files: seq<FileRecord>, baseline: FileTime, i: int)
    requires DistinctEligibleNames(files, baseline)
    requires 0 <= i < |files| && Eligible(files[i], baseline)
    ensures LastEligible(files, baseline, files[i].name) == Some(files[i])
    decreases |files|
  {
    if i < |files| - 1 {
      var init := files[..|files| - 1];
      assert init[i] == files[i];
      assert DistinctEligibleNames(init, baseline) by {
        forall a, b | 0 <= a < b < |init| && Eligible(init[a], baseline) && Eligible(init[b], baseline)
          ensures init[a].name != init[b].name
        {
          assert init[a] == files[a] && init[b] == files[b];
        }
      }
      LastEligibleOfDistinct(init, baseline, i);
    }
  }

  /** A pass over files whose hashes the stash already holds under their
      names compiles nothing and leaves the stash as it was. */
  lemma {:induction false} StableScan(env: Collaborators, stash: Stash, baseline: FileTime, files: seq<FileRecord>)
    requires forall i :: 0 <= i < |files| && Eligible(files[i], baseline) ==>
               files[i].name in stash.entries && stash.entries[files[i].name].hash == env.hash(files[i].contents)
    ensures ScanPass(env, stash, baseline, files).stash == stash
    ensures CompileCount(ScanPass(env, stash, baseline, files).actions) == 0
    decreases |files|
  {
    if files != [] {
      var init, last := files[..|files| - 1], files[|files| - 1];
      assert forall i :: 0 <= i < |init| ==> init[i] == files[i];
      StableScan(env, stash, baseline, init);
      var prev := ScanPass(env, stash, baseline, init);
      var step := Step(env, stash, baseline, last);
      assert step.stash == stash && !step.action.Compiled();
      var actions := prev.actions + [step.action];
      assert ScanPass(env, stash, baseline, files) == ScanResult(stash, actions);
      assert actions[..|actions| - 1] == prev.actions;
    }
  }

  /** Scanning the same files again, with a baseline no earlier than the
      first pass's, performs zero compiles and changes nothing, provided no
      two files the first pass accepted share a bare filename. */
  lemma RescanUnchangedIsNoOp(env: Collaborators, stash: Stash, baseline: FileTime, files: seq<FileRecord>, later: FileTime)
    requires DistinctEligibleNames(files, baseline)
    requires baseline <= later
    ensures var first := ScanPass(env, stash, baseline, files);
            var second := ScanPass(env, first.stash, later, files);
            second.stash == first.stash && CompileCount(second.actions) == 0
  {
    var first := ScanPass(env, stash, baseline, files);
    ScanOutcome(env, stash, baseline, files);
    forall i | 0 <= i < |files| && Eligible(files[i], later)
      ensures files[i].name in first.stash.entries &&
              first.stash.entries[files[i].name].hash == env.hash(files[i].contents)
    {
      LastEligibleOfDistinct(files, baseline, i);
    }
    StableScan(env, first.stash, later, files);
  }

  /** A pass whose baseline is past every file's modification time skips
      every file and leaves the stash untouched. */
  lemma OlderThanBaselineIsNoOp(env: Collaborators, stash: Stash, baseline: FileTime, files: seq<FileRecord>)
    requires forall i :: 0 <= i < |files| ==> files[i].mtime < baseline
    ensures var r := ScanPass(env, stash, baseline, files);
            r.stash == stash && forall i :: 0 <= i < |r.actions| ==> r.actions[i] == Skipped
  {
    StableScan(env, stash, baseline, files);
    PassLog(env, stash, baseline, files);
  }

  /** Two files with the same bare filename and different contents share one
      slot: the later-listed one wins it. A further pass in which both files
      still pass the filter, against the same baseline, recompiles both, so
      the slot ends that pass with a new handle to a module built from the
      later-listed file again. */
  lemma CollidingNamesRecompileWhenBothPass(env: Collaborators, stash: Stash, baseline: FileTime, f1: FileRecord, f2: FileRecord)
    requires Eligible(f1, baseline) && Eligible(f2, baseline)
    requires f1.name == f2.name && env.hash(f1.contents) != env.hash(f2.contents)
    ensures var first := ScanPass(env, stash, baseline, [f1, f2]);
            && first.stash.nextSerial > 0 && f2.name in first.stash.entries
            && first.stash.entries[f2.name] == Build(env, f2, first.stash.nextSerial - 1)
    ensures var first := ScanPass(env, stash, baseline, [f1, f2]);
            ScanPass(env, first.stash, baseline, [f1, f2]).actions == [Updated(PathOf(f1)), Updated(PathOf(f2))]
    ensures var first := ScanPass(env, stash, baseline, [f1, f2]);
            var second := ScanPass(env, first.stash, baseline, [f1, f2]);
            && second.stash.entries == first.stash.entries[f2.name := Build(env, f2, first.stash.nextSerial + 1)]
            && second.stash.nextSerial == first.stash.nextSerial + 2
  {
    CollidingLaterFileWins(env, stash, baseline, f1, f2);
    CollidingLaterPass(env, ScanPass(env, stash, baseline, [f1, f2]).stash, baseline, f1, f2);
  }

  /** A pass in which two colliding files both pass the filter, when the
      slot already holds the later-listed file's hash: both are recompiled,
      and the later-listed one wins again. */
  lemma CollidingLaterPass(env: Collaborators, stash: Stash, baseline: FileTime, f1: FileRecord, f2: FileRecord)
    requires Eligible(f1, baseline) && Eligible(f2, baseline)
    requires f1.name == f2.name && env.hash(f1.contents) != env.hash(f2.contents)
    requires f2.name in stash.entries && stash.entries[f2.name].hash == env.hash(f2.contents)
    ensures ScanPass(env, stash, baseline, [f1, f2]) ==
              ScanResult(Stash(stash.entries[f2.name := Build(env, f2, stash.nextSerial + 1)], stash.nextSerial + 2),
                         [Updated(PathOf(f1)), Updated(PathOf(f2))])
  {
    var n := f1.name;
    PairPass(env, stash, baseline, f1, f2);
    StepRecompiles(env, stash, baseline, f1);
    var b := Stash(stash.entries[n := Build(env, f1, stash.nextSerial)], stash.nextSerial + 1);
    StepRecompiles(env, b, baseline, f2);
    OverwriteTwice(stash.entries, n, Build(env, f1, stash.nextSerial), Build(env, f2, stash.nextSerial + 1));
  }

  /** The first pass over two colliding files leaves the slot holding the
      newest handle, built from the later file. */
  lemma CollidingLaterFileWins(env: Collaborators, stash: Stash, baseline: FileTime, f1: FileRecord, f2: FileRecord)
    requires Eligible(f1, baseline) && Eligible(f2, baseline)
    requires f1.name == f2.name && env.hash(f1.contents) != env.hash(f2.contents)
    ensures var first := ScanPass(env, stash, baseline, [f1, f2]);
            && first.stash.nextSerial > 0 && f2.name in first.stash.entries
            && first.stash.entries[f2.name] == Build(env, f2, first.stash.nextSerial - 1)
  {
    CollidingFirstPass(env, stash, baseline, f1, f2);
  }

  /** The first pass over two colliding files: whatever the first step did,
      the second replaces the slot with a new handle built from the later file. */
  lemma CollidingFirstPass(env: Collaborators, stash: Stash, baseline: FileTime, f1: FileRecord, f2: FileRecord)
    requires Eligible(f1, baseline) && Eligible(f2, baseline)
    requires f1.name == f2.name && env.hash(f1.contents) != env.hash(f2.contents)
    ensures var a := Step(env, stash, baseline, f1).stash;
            ScanPass(env, stash, baseline, [f1, f2]).stash ==
              Stash(a.entries[f2.name := Build(env, f2, a.nextSerial)], a.nextSerial + 1)
  {
    PairPass(env, stash, baseline, f1, f2);
    var a := Step(env, stash, baseline, f1);
    assert a.stash.entries[f1.name].hash == env.hash(f1.contents);
    StepRecompiles(env, a.stash, baseline, f2);
  }

  /** Writing a key twice leaves only the second write. */
  lemma OverwriteTwice<K, V>(m: map<K, V>, k: K, v: V, w: V)
    ensures m[k := v][k := w] == m[k := w]
  {
  }

  /** A file whose name is stashed under a different hash is recompiled and
      its entry replaced in place by a new handle. */
  lemma StepRecompiles(env: Collaborators, stash: Stash, baseline: FileTime, f: FileRecord)
    requires Eligible(f, baseline) && f.name in stash.entries && stash.entries[f.name].hash != env.hash(f.contents)
    ensures Step(env, stash, baseline, f) ==
              StepResult(Stash(stash.entries[f.name := Build(env, f, stash.nextSerial)], stash.nextSerial + 1), Updated(PathOf(f)))
  {
  }

  /** A pass over two files is the two steps in order. */
  lemma PairPass(env: Collaborators, stash: Stash, baseline: FileTime, f1: FileRecord, f2: FileRecord)
    ensures var s1 := Step(env, stash, baseline, f1);
            var s2 := Step(env, s1.stash, baseline, f2);
            ScanPass(env, stash, baseline, [f1, f2]) == ScanResult(s2.stash, [s1.action, s2.action])
  {
    var s1 := Step(env, stash, baseline, f1);
    assert [f1, f2][..1] == [f1];
    assert ScanPass(env, stash, baseline, [f1]) == ScanResult(s1.stash, [s1.action]) by {
      OneFilePass(env, stash, baseline, f1);
    }
  }

  /** A pass over one file is that file's step. */
  lemma OneFilePass(env: Collaborators, stash: Stash, baseline: FileTime, f: FileRecord)
    ensures var step := Step(env, stash, baseline, f);
            ScanPass(env, stash, baseline, [f]) == ScanResult(step.stash, [step.action])
  {
    assert [f][..0] == [];
  }

  /** After a file is compiled, `get` under its bare filename returns the
      module built from exactly that file's contents and stage. */
  lemma GetAfterCompile(env: Collaborators, stash: Stash, baseline: FileTime, f: FileRecord)
    requires Step(env, stash, baseline, f).action.Compiled()
    ensures Get(Step(env, stash, baseline, f).stash, f.name) ==
              Some(ModuleHandle(stash.nextSerial, env.createModule(env.compile(f.contents, KindOfFile(f.name), f.name))))
    ensures Valid(stash) ==>
              forall n :: n in stash.entries ==> Get(Step(env, stash, baseline, f).stash, f.name) != Some(stash.entries[n].shaderModule)
  {
  }

  /** `get` after a pass: no handle exactly for the filenames that were
      neither stashed before nor carried by a file that passed the filter. */
  lemma GetAfterScan(env: Collaborators, stash: Stash, baseline: FileTime, files: seq<FileRecord>, name: string)
    ensures Get(ScanPass(env, stash, baseline, files).stash, name) == None <==>
              name !in stash.entries && LastEligible(files, baseline, name) == None
  {
    ScanOutcome(env, stash, baseline, files);
  }

  /** A step keeps every entry's hash and module from one text: a compile
      stores both from the file's contents, and every other outcome leaves
      the entries alone. */
  lemma StepCoherent(env: Collaborators, stash: Stash, baseline: FileTime, f: FileRecord)
    requires Coherent(env, stash)
    ensures Coherent(env, Step(env, stash, baseline, f).stash)
  {
    var r := Step(env, stash, baseline, f);
    forall n | n in r.stash.entries
      ensures exists c: string :: r.stash.entries[n].hash == env.hash(c) &&
                r.stash.entries[n].shaderModule.device == env.createModule(env.compile(c, KindOfFile(n), n))
    {
      if n == f.name && r.action.Compiled() {
        var c := f.contents;
        assert r.stash.entries[n].hash == env.hash(c);
      } else {
        assert r.stash.entries[n] == stash.entries[n];
      }
    }
  }

  /** A whole pass keeps every entry's hash and module from one text. */
  lemma {:induction false} PassCoherent(env: Collaborators, stash: Stash, baseline: FileTime, files: seq<FileRecord>)
    requires Coherent(env, stash)
    ensures Coherent(env, ScanPass(env, stash, baseline, files).stash)
    decreases |files|
  {
    if files != [] {
      var init := files[..|files| - 1];
      PassCoherent(env, stash, baseline, init);
      StepCoherent(env, ScanPass(env, stash, baseline, init).stash, baseline, files[|files| - 1]);
    }
  }
}

=== FILE: scanner.dfy ===
/** One pass of the directory scan inside `watchFiles`: the per-file
    decision (skip, keep, replace, insert) and the pass as a fold of that
    decision over the files the directory iterator yields. */
module Scanner {
  import opened Optional
  import opened ShaderKinds
  import opened ShaderCache

  /** A `file_clock` time point: a signed 64-bit tick count relative to the
      clock's epoch. */
  type FileTime = t: int | -0x8000_0000_0000_0000 <= t < 0x8000_0000_0000_0000

  /** `file_time_type::min()`, no later than any file's time. */
  const MinFileTime: FileTime := -0x8000_0000_0000_0000

  /** What the pass sees of one directory entry: where it lives, its bare
      filename, the three guards of the entry filter, and the text that
      reading the file produces. */
  datatype FileRecord = FileRecord(
    directory: seq<string>,
    name: string,
    isRegular: bool,
    present: bool,
    mtime: FileTime,
    contents: string)

  /** The full path of a file, used only to name it in log messages. */
  function PathOf(f: FileRecord): seq<string>
  {
    f.directory + [f.name]
  }

  /** The code the stash cannot see: `std::hash`, the shader compiler and the
      device's module creation. Each is an arbitrary total function. */
  datatype Collaborators = Collaborators(
    hash: string -> SizeT,
    compile: (string, ShaderKind, string) -> SpirV,
    createModule: SpirV -> DeviceModule)

  /** What one file did to the stash; `Added` and `Updated` are the two log
      lines, and the only outcomes that run the compiler. */
  datatype Action =
    | Skipped
    | KeptUnchanged
    | Updated(path: seq<string>)
    | Added(path: seq<string>)
  {
    predicate Compiled()
    {
      Updated? || Added?
    }
  }

  datatype StepResult = StepResult(stash: Stash, action: Action)

  datatype ScanResult = ScanResult(stash: Stash, actions: seq<Action>)

  /** The entry filter: regular, not older than the baseline, still present. */
  predicate Eligible(f: FileRecord, baseline: FileTime)
  {
    f.isRegular && baseline <= f.mtime && f.present
  }

  /** The entry a compile of `f` produces: its hash, paired with a new
      handle (allocation `serial`) to the module the device builds from the
      compiler's output. The compiler result is used whatever it is. */
  function Build(env: Collaborators, f: FileRecord, serial: nat): Entry
  {
    var spirv := env.compile(f.contents, KindOfFile(f.name), f.name);
    Entry(env.hash(f.contents), ModuleHandle(serial, env.createModule(spirv)))
  }

  /** Every entry's hash and module come from one text: some source `c`
      hashes to the stored hash, and the stored module is what the device
      builds from `c` compiled under the entry's filename and stage. */
  ghost predicate Coherent(env: Collaborators, s: Stash)
  {
    forall n :: n in s.entries ==>
      exists c: string :: s.entries[n].hash == env.hash(c) &&
        s.entries[n].shaderModule.device == env.createModule(env.compile(c, KindOfFile(n), n))
  }

  /** The loop body for one directory entry. */
  function Step(env: Collaborators, stash: Stash, baseline: FileTime, f: FileRecord): (r: StepResult)
    // filtered-out entries change nothing
    ensures !Eligible(f, baseline) ==> r == StepResult(stash, Skipped)
    // same name, same hash: no compile, entry untouched
    ensures Eligible(f, baseline) && f.name in stash.entries && stash.entries[f.name].hash == env.hash(f.contents) ==>
              r == StepResult(stash, KeptUnchanged)
    // same name, new hash: recompiled, and the entry replaced in place
    ensures Eligible(f, baseline) && f.name in stash.entries && stash.entries[f.name].hash != env.hash(f.contents) ==>
              r.action == Updated(PathOf(f))
    // new name: compiled, and one entry added
    ensures Eligible(f, baseline) && f.name !in stash.entries ==> r.action == Added(PathOf(f))
    // a compile stores its result, under a newly nextSerial handle, at the
    // bare filename, not the path
    ensures r.action.Compiled() ==>
              && f.name in r.stash.entries
              && r.stash.entries[f.name] == Build(env, f, stash.nextSerial)
              && r.stash.nextSerial == stash.nextSerial + 1
    // no other filename is touched
    ensures forall n :: n != f.name ==> (n in r.stash.entries <==> n in stash.entries)
    ensures forall n :: n != f.name && n in stash.entries ==> r.stash.entries[n] == stash.entries[n]
    // handles stay distinct from every handle nextSerial later
    ensures Valid(stash) ==> Valid(r.stash)
  {
    if !Eligible(f, baseline) then StepResult(stash, Skipped)
    else
      var h := env.hash(f.contents);
      var next := Stash(stash.entries[f.name := Build(env, f, stash.nextSerial)], stash.nextSerial + 1);
      if f.name in stash.entries && stash.entries[f.name].hash == h then StepResult(stash, KeptUnchanged)
      else if f.name in stash.entries then StepResult(next, Updated(PathOf(f)))
      else StepResult(next, Added(PathOf(f)))
  }

  /** Number of `Added` outcomes in a log. */
  function AddedCount(actions: seq<Action>): nat
  {
    if actions == [] then 0
    else AddedCount(actions[..|actions| - 1]) + (if actions[|actions| - 1].Added? then 1 else 0)
  }

  /** Number of compiler runs in a log. */
  function CompileCount(actions: seq<Action>): nat
  {
    if actions == [] then 0
    else CompileCount(actions[..|actions| - 1]) + (if actions[|actions| - 1].Compiled() then 1 else 0)
  }

  /** One scan pass: `Step` applied to the files in iteration order. */
  function ScanPass(env: Collaborators, stash: Stash, baseline: FileTime, files: seq<FileRecord>): (r: ScanResult)
    ensures |r.actions| == |files|
    ensures stash.entries.Keys <= r.stash.entries.Keys
    ensures stash.nextSerial <= r.stash.nextSerial
    ensures Valid(stash) ==> Valid(r.stash)
    decreases |files|
  {
    if files == [] then ScanResult(stash, [])
    else
      var prev := ScanPass(env, stash, baseline, files[..|files| - 1]);
      var step := Step(env, prev.stash, baseline, files[|files| - 1]);
      ScanResult(step.stash, prev.actions + [step.action])
  }

  /** The pass as the source runs it: a forward loop over the entries. */
  method RunScan(env: Collaborators, stash: Stash, baseline: FileTime, files: seq<FileRecord>)
    returns (result: Stash, actions: seq<Action>)
    ensures ScanResult(result, actions) == ScanPass(env, stash, baseline, files)
    ensures |actions| == |files| && stash.entries.Keys <= result.entries.Keys
  {
    result, actions := stash, [];
    var i := 0;
    while i < |files|
      invariant 0 <= i <= |files|
      invariant ScanResult(result, actions) == ScanPass(env, stash, baseline, files[..i])
    {
      var step := Step(env, result, baseline, files[i]);
      assert files[..i + 1][..i] == files[..i] && files[..i + 1][i] == files[i];
      assert ScanPass(env, stash, baseline, files[..i + 1]) == ScanResult(step.stash, actions + [step.action]);
      result, actions := step.stash, actions + [step.action];
      i := i + 1;
    }
    assert files[..i] == files;
  }

  /** The last file of the pass that passes the filter under `name`, if any:
      no file after it passes the filter with that name. */
  function LastEligible(files: seq<FileRecord>, baseline: FileTime, name: string): (r: Option<FileRecord>)
    ensures r.Some? ==>
              exists i :: 0 <= i < |files| && files[i] == r.value && Eligible(files[i], baseline) && files[i].name == name
                && forall j :: i < j < |files| ==> !(Eligible(files[j], baseline) && files[j].name == name)
    ensures r.None? <==> forall i :: 0 <= i < |files| ==> !(Eligible(files[i], baseline) && files[i].name == name)
    decreases |files|
  {
    if files == [] then None
    else if Eligible(files[|files| - 1], baseline) && files[|files| - 1].name == name then Some(files[|files| - 1])
    else
      var init := files[..|files| - 1];
      var r := LastEligible(init, baseline, name);
      if r.Some? then
        var i :| 0 <= i < |init| && init[i] == r.value && Eligible(init[i], baseline) && init[i].name == name
                 && forall j :: i < j < |init| ==> !(Eligible(init[j], baseline) && init[j].name == name);
        assert forall j :: i < j < |files| ==> !(Eligible(files[j], baseline) && files[j].name == name) by {
          forall j | i < j < |files| ensures !(Eligible(files[j], baseline) && files[j].name == name) {
            if j < |init| { assert init[j] == files[j]; }
          }
        }
        r
      else r
  }

  /** No two files that pass the filter share a bare filename. */
  predicate DistinctEligibleNames(files: seq<FileRecord>, baseline: FileTime)
  {
    forall i, j :: 0 <= i < j < |files| && Eligible(files[i], baseline) && Eligible(files[j], baseline)
                   ==> files[i].name != files[j].name
  }
}

=== FILE: shader_cache.dfy ===
/** The stash's map from bare shader filename to (content hash, module),
    and the read-only lookup `get`. */
module ShaderCache {
  import opened Optional

  /** `std::size_t`, the result type of `std::hash<std::string>`. */
  type SizeT = x: int | 0 <= x < 0x1_0000_0000_0000_0000

  /** Compiled SPIR-V words, `std::vector<uint32_t>`. */
  type SpirV = seq<bv32>

  /** The `vk::raii::ShaderModule` the device creates; opaque here. */
  datatype DeviceModule = DeviceModule(id: nat)

  /** A `shared_ptr<vk::raii::ShaderModule>`. Every `make_shared` gives a new
      pointer, so a handle carries the serial number of the allocation that
      made it, next to the device module it owns. */
  datatype ModuleHandle = ModuleHandle(serial: nat, device: DeviceModule)

  /** One cached shader: the hash of the source it was compiled from and the
      module built from that source. */
  datatype Entry = Entry(hash: SizeT, shaderModule: ModuleHandle)

  /** The `shaders` member (filename -> entry), with the number of module
      handles allocated so far; the next handle gets serial `nextSerial`. */
  datatype Stash = Stash(entries: map<string, Entry>, nextSerial: nat)

  /** A freshly constructed stash. */
  const Empty: Stash := Stash(map[], 0)

  /** Every handle the stash holds was allocated before the next one, so a
      newly made handle differs from all of them. */
  predicate Valid(s: Stash)
  {
    forall n :: n in s.entries ==> s.entries[n].shaderModule.serial < s.nextSerial
  }

  /** `get`: the cached module for `name`, or no handle when the filename
      was never stashed. A lookup never compiles anything. */
  function Get(stash: Stash, name: string): (r: Option<ModuleHandle>)
    ensures r == None <==> name !in stash.entries
    ensures r.Some? ==> name in stash.entries && r.value == stash.entries[name].shaderModule
  {
    if name in stash.entries then Some(stash.entries[name].shaderModule) else None
  }
}

=== FILE: shader_kinds.dfy ===
/** The fixed table from file extension to shader stage, and the
    `std::filesystem::path::extension` rule that produces the lookup key. */
module ShaderKinds {
  import opened Optional

  /** The subset of `shaderc_shader_kind` the stash can produce. */
  datatype ShaderKind =
    | Vertex
    | Fragment
    | Geometry
    | TessControl
    | TessEvaluation
    | Compute
    | InferFromSource

  /** The static `knownExtensions` table, built once for the whole process. */
  const KnownExtensions: map<string, ShaderKind> :=
    map[".vert" := Vertex, ".frag" := Fragment,
        ".geom" := Geometry, ".tesc" := TessControl,
        ".tese" := TessEvaluation, ".comp" := Compute]

  /** Stage for an extension: a table hit, or the "infer from the source
      pragmas" sentinel for anything else (the match is exact and
      case-sensitive, so ".VERT" is not a vertex shader). */
  function InferKind(ext: string): (k: ShaderKind)
    ensures k == Vertex <==> ext == ".vert"
    ensures k == Fragment <==> ext == ".frag"
    ensures k == Geometry <==> ext == ".geom"
    ensures k == TessControl <==> ext == ".tesc"
    ensures k == TessEvaluation <==> ext == ".tese"
    ensures k == Compute <==> ext == ".comp"
    ensures k == InferFromSource <==>
              ext !in {".vert", ".frag", ".geom", ".tesc", ".tese", ".comp"}
  {
    if ext in KnownExtensions then KnownExtensions[ext] else InferFromSource
  }

  /** Position of the last occurrence of `c` in `s`, if any. */
  function LastIndexOf(s: string, c: char): (r: Option<nat>)
    ensures r.Some? ==> r.value < |s| && s[r.value] == c && c !in s[r.value + 1..]
    ensures r.None? <==> c !in s
  {
    if |s| == 0 then None
    else if s[|s| - 1] == c then Some(|s| - 1)
    else LastIndexOf(s[..|s| - 1], c)
  }

  /** `path::extension` of a bare filename: the suffix starting at the last
      period, except that "." and "..", names without a period, and names
      whose only period is the leading one have no extension. */
  function Extension(name: string): (e: string)
    ensures |e| <= |name| && e == name[|name| - |e|..]
    ensures e != [] ==> e[0] == '.' && '.' !in e[1..] && |e| < |name|
    ensures e == [] <==>
              || '.' !in name
              || name == ".."
              || (|name| > 0 && name[0] == '.' && '.' !in name[1..])
  {
    if name == "." || name == ".." then ""
    else
      match LastIndexOf(name, '.')
      case None => ""
      case Some(i) => if i == 0 then "" else name[i..]
  }

  /** Stage the scanner compiles a file with, from its bare filename. */
  function KindOfFile(name: string): ShaderKind
  {
    InferKind(Extension(name))
  }

  /** A period that is not the first character and has no period after it
      starts the extension. */
  lemma ExtensionAt(name: string, i: nat)
    requires 0 < i < |name| && name[i] == '.' && name != ".."
    requires forall j :: i < j < |name| ==> name[j] != '.'
    ensures Extension(name) == name[i..]
  {
    assert '.' in name;
  }

  /** A name whose only period, if any, is its first character has no
      extension. */
  lemma NoExtension(name: string)
    requires forall j :: 0 < j < |name| ==> name[j] != '.'
    ensures Extension(name) == ""
  {
    if |name| > 0 && name[0] == '.' {
      assert '.' !in name[1..] by {
        forall j | 0 <= j < |name[1..]| ensures name[1..][j] != '.' {
          assert name[1..][j] == name[j + 1];
        }
      }
    } else {
      assert '.' !in name;
    }
  }

  /** A table extension picks its stage. */
  lemma FragmentExample()
    ensures KindOfFile("a.frag") == Fragment
  {
    ExtensionAt("a.frag", 1);
    assert "a.frag"[1..] == ".frag";
  }

  /** Only the text after the last period is the extension. */
  lemma DottedNameExample()
    ensures KindOfFile("sky.box.vert") == Vertex
  {
    ExtensionAt("sky.box.vert", 7);
    assert "sky.box.vert"[7..] == ".vert";
  }

  /** The `knownExtensions` table: six keys, none mapped to the fallback
      stage. */
  lemma KnownExtensionsTable()
    ensures KnownExtensions.Keys == {".vert", ".frag", ".geom", ".tesc", ".tese", ".comp"}
    ensures forall e :: e in KnownExtensions ==> KnownExtensions[e] != InferFromSource
  {
  }

  /** Every key of the table is a period followed by four lower-case letters. */
  lemma TableKeyShape()
    ensures forall e :: e in KnownExtensions ==>
              |e| == 5 && e[0] == '.' && forall j :: 1 <= j < 5 ==> 'a' <= e[j] <= 'z'
  {
    forall e | e in KnownExtensions
      ensures |e| == 5 && e[0] == '.' && forall j :: 1 <= j < 5 ==> 'a' <= e[j] <= 'z'
    {
      assert e == ".vert" || e == ".frag" || e == ".geom" || e == ".tesc" || e == ".tese" || e == ".comp";
    }
  }

  /** A file gets a stage from the table exactly when its name is longer
      than five characters and ends in one of the six extensions; it then
      gets that extension's stage. */
  lemma KindFromSuffix(name: string)
    ensures KindOfFile(name) != InferFromSource <==> |name| > 5 && name[|name| - 5..] in KnownExtensions
    ensures KindOfFile(name) != InferFromSource ==> KindOfFile(name) == KnownExtensions[name[|name| - 5..]]
  {
    KnownExtensionsTable();
    if |name| > 5 && name[|name| - 5..] in KnownExtensions {
      SuffixGivesKind(name);
    } else {
      KindNeedsSuffix(name);
    }
  }

  /** A name ending in a table extension after at least one other character
      has that extension. */
  lemma SuffixGivesKind(name: string)
    requires |name| > 5 && name[|name| - 5..] in KnownExtensions
    ensures Extension(name) == name[|name| - 5..]
  {
    var i := |name| - 5;
    assert name[i..] in KnownExtensions;
    TableKeyShape();
    forall j | i < j < |name| ensures name[j] != '.' {
      assert name[j] == name[i..][j - i];
    }
    assert name[i] == name[i..][0];
    ExtensionAt(name, i);
  }

  /** An extension found in the table is the name's last five characters. */
  lemma KindNeedsSuffix(name: string)
    ensures Extension(name) in KnownExtensions ==> |name| > 5 && name[|name| - 5..] == Extension(name)
  {
    TableKeyShape();
  }

  /** An extension outside the table leaves the stage to the compiler. */
  lemma UnknownStageExample()
    ensures KindOfFile("b.xyz") == InferFromSource
  {
    ExtensionAt("b.xyz", 1);
    assert "b.xyz"[1..] == ".xyz";
    TableKeyShape();
  }

  /** Only the last extension counts: a backup of a vertex shader is not one. */
  lemma BackupFileExample()
    ensures KindOfFile("a.vert.bak") == InferFromSource
  {
    ExtensionAt("a.vert.bak", 6);
    assert "a.vert.bak"[6..] == ".bak";
    TableKeyShape();
  }

  /** The table lookup is case-sensitive. */
  lemma UpperCaseExample()
    ensures KindOfFile("a.VERT") == InferFromSource
  {
    ExtensionAt("a.VERT", 1);
    assert "a.VERT"[1..] == ".VERT";
    TableKeyShape();
  }

  /** A file named just ".vert" has no extension, so it is not a vertex
      shader. */
  lemma HiddenFileExample()
    ensures KindOfFile(".vert") == InferFromSource
  {
    NoExtension(".vert");
  }
}

=== FILE: watcher.dfy ===
/** The worker loop of `watchFiles`: scan passes, one after another, each
    against the baseline the previous pass left behind. The loop runs until
    the stop token is raised, which here is the end of the list of passes. */
module Watcher {
  import opened Optional
  import opened ShaderCache
  import opened Scanner
  import opened ScanProperties
  import opened ShaderKinds

  /** A default-constructed `file_clock` time point: tick zero, the clock's
      epoch. The C++ standard leaves that epoch to the implementation; with
      libstdc++ it is the start of 2174, so every real file time is earlier
      (negative here) and the first pass skips every file. */
  const Epoch: FileTime := 0

  /** One loop iteration: the clock when the pass began, what the directory
      iterator yielded, and the clock when the pass was done. */
  datatype Pass = Pass(started: FileTime, files: seq<FileRecord>, finished: FileTime)

  /** Which clock reading becomes the next pass's baseline. */
  datatype BaselineRule = AtFinish | AtStart

  function NextBaseline(rule: BaselineRule, p: Pass): FileTime
  {
    match rule
    case AtFinish => p.finished
    case AtStart => p.started
  }

  /** The loop's state after some passes: the stash, the baseline for the
      next pass, and each pass's log. */
  datatype WatchState = WatchState(stash: Stash, baseline: FileTime, logs: seq<seq<Action>>)

  /** Run the passes in order, the first against baseline `first`. Entries
      are only ever added or replaced: no filename leaves the stash. */
  function Watch(env: Collaborators, stash: Stash, passes: seq<Pass>, rule: BaselineRule, first: FileTime): (r: WatchState)
    ensures |r.logs| == |passes|
    ensures forall k :: 0 <= k < |passes| ==> |r.logs[k]| == |passes[k].files|
    ensures stash.entries.Keys <= r.stash.entries.Keys
    ensures r.baseline == if passes == [] then first else NextBaseline(rule, passes[|passes| - 1])
    decreases |passes|
  {
    if passes == [] then WatchState(stash, first, [])
    else
      var prev := Watch(env, stash, passes[..|passes| - 1], rule, first);
      var scan := ScanPass(env, prev.stash, prev.baseline, passes[|passes| - 1].files);
      WatchState(scan.stash, NextBaseline(rule, passes[|passes| - 1]), prev.logs + [scan.actions])
  }

  /** The loop as the source writes it: the first baseline is the
      default-constructed time point, and the clock is read after each pass. */
  function WatchAsWritten(env: Collaborators, stash: Stash, passes: seq<Pass>): (r: WatchState)
    ensures |r.logs| == |passes|
    ensures r.baseline == if passes == [] then Epoch else passes[|passes| - 1].finished
  {
    Watch(env, stash, passes, AtFinish, Epoch)
  }

  /** The loop with the first baseline at the clock's minimum and the clock
      read before each pass. */
  function WatchCorrected(env: Collaborators, stash: Stash, passes: seq<Pass>): (r: WatchState)
    ensures |r.logs| == |passes|
    ensures r.baseline == if passes == [] then MinFileTime else passes[|passes| - 1].started
  {
    Watch(env, stash, passes, AtStart, MinFileTime)
  }

  /** Clock readings that move forward: each pass finishes no earlier than it
      starts, and starts no earlier than the previous one finished. */
  predicate Chronological(passes: seq<Pass>)
  {
    && (forall i :: 0 <= i < |passes| ==> passes[i].started <= passes[i].finished)
    && (forall i :: 0 < i < |passes| ==> passes[i - 1].finished <= passes[i].started)
  }

  /** Pass `k` is one scan of its files, run on the stash the earlier passes
      left, against the baseline they left. */
  lemma {:induction false} WatchLog(env: Collaborators, stash: Stash, passes: seq<Pass>, rule: BaselineRule, first: FileTime, k: int)
    requires 0 <= k < |passes|
    ensures var before := Watch(env, stash, passes[..k], rule, first);
            Watch(env, stash, passes, rule, first).logs[k] ==
              ScanPass(env, before.stash, before.baseline, passes[k].files).actions
  {
    assert passes[..|passes|] == passes;
    var before := Watch(env, stash, passes[..k], rule, first);
    var expected := ScanPass(env, before.stash, before.baseline, passes[k].files).actions;
    assert Watch(env, stash, passes[..k + 1], rule, first).logs[k] == expected by {
      WatchPrefixLogs(env, stash, passes, rule, first, k + 1);
    }
    LogKept(env, stash, passes, rule, first, k, |passes|);
  }

  /** The logs of the first `j` passes are those of the first `j - 1`, then
      one more scan's. */
  lemma WatchPrefixLogs(env: Collaborators, stash: Stash, passes: seq<Pass>, rule: BaselineRule, first: FileTime, j: int)
    requires 0 < j <= |passes|
    ensures var prev := Watch(env, stash, passes[..j - 1], rule, first);
            Watch(env, stash, passes[..j], rule, first).logs ==
              prev.logs + [ScanPass(env, prev.stash, prev.baseline, passes[j - 1].files).actions]
  {
    var prefix := passes[..j];
    PrefixOfPrefix(passes, j, j - 1);
    var prev := Watch(env, stash, prefix[..j - 1], rule, first);
    assert Watch(env, stash, prefix, rule, first).logs ==
             prev.logs + [ScanPass(env, prev.stash, prev.baseline, prefix[j - 1].files).actions];
  }

  /** Later passes append to the logs: pass `k`'s log stays what it was when
      that pass ended. */
  lemma {:induction false} LogKept(env: Collaborators, stash: Stash, passes: seq<Pass>, rule: BaselineRule, first: FileTime, k: int, j: int)
    requires 0 <= k < j <= |passes|
    ensures Watch(env, stash, passes[..j], rule, first).logs[k] == Watch(env, stash, passes[..k + 1], rule, first).logs[k]
    decreases j
  {
    var kept := Watch(env, stash, passes[..k + 1], rule, first).logs[k];
    if j > k + 1 {
      assert Watch(env, stash, passes[..j - 1], rule, first).logs[k] == kept by {
        LogKept(env, stash, passes, rule, first, k, j - 1);
      }
      LogKeptByOnePass(env, stash, passes, rule, first, k, j);
    }
  }

  /** One more pass leaves the earlier passes' logs alone. */
  lemma LogKeptByOnePass(env: Collaborators, stash: Stash, passes: seq<Pass>, rule: BaselineRule, first: FileTime, k: int, j: int)
    requires 0 <= k && k + 1 < j <= |passes|
    ensures Watch(env, stash, passes[..j], rule, first).logs[k] == Watch(env, stash, passes[..j - 1], rule, first).logs[k]
  {
    WatchPrefixLogs(env, stash, passes, rule, first, j);
  }

  /** A run of passes is the run of all but the last, followed by one scan. */
  lemma WatchSnoc(env: Collaborators, stash: Stash, passes: seq<Pass>, rule: BaselineRule, first: FileTime)
    requires passes != []
    ensures var prev := Watch(env, stash, passes[..|passes| - 1], rule, first);
            var scan := ScanPass(env, prev.stash, prev.baseline, passes[|passes| - 1].files);
            Watch(env, stash, passes, rule, first) ==
              WatchState(scan.stash, NextBaseline(rule, passes[|passes| - 1]), prev.logs + [scan.actions])
  {
  }

  /** The baseline pass `k` runs against: the first one, or the reading the
      pass before it took. */
  lemma BaselineBefore(env: Collaborators, stash: Stash, passes: seq<Pass>, rule: BaselineRule, first: FileTime, k: int)
    requires 0 <= k < |passes|
    ensures Watch(env, stash, passes[..k], rule, first).baseline ==
              if k == 0 then first else NextBaseline(rule, passes[k - 1])
  {
    if k > 0 {
      assert passes[..k][k - 1] == passes[k - 1];
    }
  }

  /** The loop keeps every entry's hash and module from one text, under
      either rule and from any first baseline. */
  lemma {:induction false} WatchCoherent(env: Collaborators, stash: Stash, passes: seq<Pass>, rule: BaselineRule, first: FileTime)
    requires Coherent(env, stash)
    ensures Coherent(env, Watch(env, stash, passes, rule, first).stash)
    decreases |passes|
  {
    if passes != [] {
      var init := passes[..|passes| - 1];
      WatchCoherent(env, stash, init, rule, first);
      var prev := Watch(env, stash, init, rule, first);
      PassCoherent(env, prev.stash, prev.baseline, passes[|passes| - 1].files);
    }
  }

  /** What `get` hands out after any run that began with an empty stash is a
      handle to the module the device built from some text compiled under
      that filename and its stage, and the stash pairs it with that text's
      hash. */
  lemma GetAfterWatch(env: Collaborators, passes: seq<Pass>, rule: BaselineRule, first: FileTime, name: string, h: ModuleHandle)
    requires Get(Watch(env, Empty, passes, rule, first).stash, name) == Some(h)
    ensures exists c: string ::
              && Watch(env, Empty, passes, rule, first).stash.entries[name].hash == env.hash(c)
              && h.device == env.createModule(env.compile(c, KindOfFile(name), name))
  {
    WatchCoherent(env, Empty, passes, rule, first);
  }

  /** Under chronological clocks, every reading after the first pass began is
      no earlier than that start. */
  lemma {:induction false} ClockOrder(passes: seq<Pass>, k: int)
    requires Chronological(passes)
    requires 0 <= k < |passes|
    ensures passes[0].started <= passes[k].started <= passes[k].finished
    decreases k
  {
    if k > 0 {
      ClockOrder(passes, k - 1);
    }
  }

  /** A pass that sees exactly the files the previous pass saw compiles
      nothing, under either rule, when the clock has moved forward, no two
      files that pass the filter share a bare filename, and the baseline has
      not moved backward across the first pass. */
  lemma UnchangedDirectoryCompilesNothing(env: Collaborators, stash: Stash, passes: seq<Pass>, rule: BaselineRule, first: FileTime, p: Pass)
    requires Chronological(passes) && |passes| > 0
    requires |passes| > 1 || first <= NextBaseline(rule, passes[0])
    requires p.files == passes[|passes| - 1].files
    requires DistinctEligibleNames(p.files, Watch(env, stash, passes[..|passes| - 1], rule, first).baseline)
    ensures var r := Watch(env, stash, passes + [p], rule, first);
            CompileCount(r.logs[|passes|]) == 0 && r.stash == Watch(env, stash, passes, rule, first).stash
  {
    var all := passes + [p];
    assert all[..|all| - 1] == passes;
    var init := passes[..|passes| - 1];
    var before := Watch(env, stash, init, rule, first);
    var last := passes[|passes| - 1];
    assert before.baseline <= NextBaseline(rule, last) by {
      if |init| > 0 {
        assert init[|init| - 1] == passes[|passes| - 2];
      }
    }
    RescanUnchangedIsNoOp(env, before.stash, before.baseline, last.files, NextBaseline(rule, last));
  }

  /** With the clock read before each pass, every file written since the
      previous pass began is inspected by the next pass, so the stash holds
      the hash of its current contents once that pass is done. */
  lemma {:induction false} NoLostEditCorrected(env: Collaborators, stash: Stash, passes: seq<Pass>, p: Pass, i: int)
    requires |passes| > 0
    requires DistinctEligibleNames(p.files, passes[|passes| - 1].started)
    requires 0 <= i < |p.files| && p.files[i].isRegular && p.files[i].present
    requires passes[|passes| - 1].started <= p.files[i].mtime
    ensures var r := WatchCorrected(env, stash, passes + [p]);
            && p.files[i].name in r.stash.entries
            && r.stash.entries[p.files[i].name].hash == env.hash(p.files[i].contents)
  {
    var all := passes + [p];
    assert all[..|all| - 1] == passes;
    var prev := Watch(env, stash, passes, AtStart, MinFileTime);
    ScanOutcome(env, prev.stash, prev.baseline, p.files);
    LastEligibleOfDistinct(p.files, prev.baseline, i);
  }

  /** Two passes are the second scan run on the first one's stash, against
      the baseline the first one left. */
  lemma WatchPair(env: Collaborators, stash: Stash, p1: Pass, p2: Pass, rule: BaselineRule, first: FileTime)
    ensures var s1 := ScanPass(env, stash, first, p1.files);
            var s2 := ScanPass(env, s1.stash, NextBaseline(rule, p1), p2.files);
            Watch(env, stash, [p1, p2], rule, first) == WatchState(s2.stash, NextBaseline(rule, p2), [s1.actions, s2.actions])
  {
    assert [p1, p2][..1] == [p1] && [p1][..0] == [];
    var s1 := ScanPass(env, stash, first, p1.files);
    assert Watch(env, stash, [], rule, first) == WatchState(stash, first, []);
    assert Watch(env, stash, [p1], rule, first) == WatchState(s1.stash, NextBaseline(rule, p1), [s1.actions]);
  }

  /** With the clock read after each pass, as the source does, an edit that
      lands before pass `k` ends, on a file whose older text pass `k` left in
      the stash, is never inspected: every later pass compares the file with
      a reading taken after pass `k` ended, skips it, and the stash keeps the
      old entry for good. */
  lemma LostEditAsWritten(env: Collaborators, stash: Stash, passes: seq<Pass>, k: int, edited: FileRecord)
    requires Chronological(passes) && 0 <= k < |passes|
    requires edited.mtime < passes[k].finished
    requires var s := WatchAsWritten(env, stash, passes[..k + 1]).stash;
             edited.name in s.entries && s.entries[edited.name].hash != env.hash(edited.contents)
    requires forall m, i :: k < m < |passes| && 0 <= i < |passes[m].files| && passes[m].files[i].name == edited.name ==>
               passes[m].files[i] == edited
    ensures forall j :: k < j <= |passes| ==>
              var s := WatchAsWritten(env, stash, passes[..j]).stash;
              && edited.name in s.entries
              && s.entries[edited.name] == WatchAsWritten(env, stash, passes[..k + 1]).stash.entries[edited.name]
              && s.entries[edited.name].hash != env.hash(edited.contents)
  {
    forall j | k < j <= |passes|
      ensures var s := Watch(env, stash, passes[..j], AtFinish, Epoch).stash;
              && edited.name in s.entries
              && s.entries[edited.name] == Watch(env, stash, passes[..k + 1], AtFinish, Epoch).stash.entries[edited.name]
    {
      EditStaysLost(env, stash, passes, k, edited, j);
    }
  }

  /** The induction behind `LostEditAsWritten`: after each further pass the
      entry is still the one pass `k` left. */
  lemma {:induction false} EditStaysLost(env: Collaborators, stash: Stash, passes: seq<Pass>, k: int, edited: FileRecord, j: int)
    requires Chronological(passes) && 0 <= k < j <= |passes|
    requires edited.mtime < passes[k].finished
    requires edited.name in Watch(env, stash, passes[..k + 1], AtFinish, Epoch).stash.entries
    requires forall m, i :: k < m < |passes| && 0 <= i < |passes[m].files| && passes[m].files[i].name == edited.name ==>
               passes[m].files[i] == edited
    ensures var s := Watch(env, stash, passes[..j], AtFinish, Epoch).stash;
            && edited.name in s.entries
            && s.entries[edited.name] == Watch(env, stash, passes[..k + 1], AtFinish, Epoch).stash.entries[edited.name]
    decreases j
  {
    var name := edited.name;
    var kept := Watch(env, stash, passes[..k + 1], AtFinish, Epoch).stash.entries[name];
    if j > k + 1 {
      var before := Watch(env, stash, passes[..j - 1], AtFinish, Epoch).stash;
      assert name in before.entries && before.entries[name] == kept by {
        EditStaysLost(env, stash, passes, k, edited, j - 1);
      }
      LaterPassKeepsEdit(env, stash, passes, k, edited, j);
    }
  }

  /** One pass after `k`: it skips every file under the edited name, so the
      entry it leaves is the one it found. */
  lemma LaterPassKeepsEdit(env: Collaborators, stash: Stash, passes: seq<Pass>, k: int, edited: FileRecord, j: int)
    requires Chronological(passes) && 0 <= k && k + 1 < j <= |passes|
    requires edited.mtime < passes[k].finished
    requires edited.name in Watch(env, stash, passes[..j - 1], AtFinish, Epoch).stash.entries
    requires forall m, i :: k < m < |passes| && 0 <= i < |passes[m].files| && passes[m].files[i].name == edited.name ==>
               passes[m].files[i] == edited
    ensures var s := Watch(env, stash, passes[..j], AtFinish, Epoch).stash;
            && edited.name in s.entries
            && s.entries[edited.name] == Watch(env, stash, passes[..j - 1], AtFinish, Epoch).stash.entries[edited.name]
  {
    var prev := Watch(env, stash, passes[..j - 1], AtFinish, Epoch);
    assert Watch(env, stash, passes[..j], AtFinish, Epoch).stash == ScanPass(env, prev.stash, prev.baseline, passes[j - 1].files).stash by {
      WatchPrefixStep(env, stash, passes, AtFinish, Epoch, j);
    }
    EditOlderThanLaterBaselines(env, stash, passes, k, edited, j - 1);
    SkippedNameKept(env, prev.stash, prev.baseline, passes[j - 1].files, edited.name);
  }

  /** Pass `j` of a run is one scan on what the first `j - 1` passes left. */
  lemma WatchPrefixStep(env: Collaborators, stash: Stash, passes: seq<Pass>, rule: BaselineRule, first: FileTime, j: int)
    requires 0 < j <= |passes|
    ensures var prev := Watch(env, stash, passes[..j - 1], rule, first);
            Watch(env, stash, passes[..j], rule, first).stash ==
              ScanPass(env, prev.stash, prev.baseline, passes[j - 1].files).stash
  {
    var prefix := passes[..j];
    PrefixOfPrefix(passes, j, j - 1);
    var prev := Watch(env, stash, prefix[..j - 1], rule, first);
    assert Watch(env, stash, prefix, rule, first).stash == ScanPass(env, prev.stash, prev.baseline, prefix[j - 1].files).stash;
  }

  /** A prefix of a prefix is the shorter prefix, and indexing into a prefix
      is indexing into the whole. */
  lemma PrefixOfPrefix<T>(s: seq<T>, j: int, k: int)
    requires 0 <= k < j <= |s|
    ensures s[..j][..k] == s[..k] && s[..j][k] == s[k]
  {
  }

  /** A pass in which every file carrying `name` is older than the baseline
      leaves that name's entry as it was. */
  lemma SkippedNameKept(env: Collaborators, stash: Stash, baseline: FileTime, files: seq<FileRecord>, name: string)
    requires name in stash.entries
    requires forall i :: 0 <= i < |files| && files[i].name == name ==> files[i].mtime < baseline
    ensures var s := ScanPass(env, stash, baseline, files).stash;
            name in s.entries && s.entries[name] == stash.entries[name]
  {
    assert LastEligible(files, baseline, name).None? by {
      forall i | 0 <= i < |files|
        ensures !(Eligible(files[i], baseline) && files[i].name == name)
      {
      }
    }
    ScanKeepsUntouched(env, stash, baseline, files);
  }

  /** Every file a pass after `k` lists under the edited name is the edited
      file, older than the reading the pass before it took. */
  lemma EditOlderThanLaterBaselines(env: Collaborators, stash: Stash, passes: seq<Pass>, k: int, edited: FileRecord, m: int)
    requires Chronological(passes) && 0 <= k < m < |passes|
    requires edited.mtime < passes[k].finished
    requires forall m, i :: k < m < |passes| && 0 <= i < |passes[m].files| && passes[m].files[i].name == edited.name ==>
               passes[m].files[i] == edited
    ensures forall i :: 0 <= i < |passes[m].files| && passes[m].files[i].name == edited.name ==>
              passes[m].files[i].mtime < Watch(env, stash, passes[..m], AtFinish, Epoch).baseline
  {
    FinishOrder(passes, k, m - 1);
    BaselineBefore(env, stash, passes, AtFinish, Epoch, m);
  }

  /** Under chronological clocks, a later pass finishes no earlier. */
  lemma {:induction false} FinishOrder(passes: seq<Pass>, k: int, m: int)
    requires Chronological(passes)
    requires 0 <= k <= m < |passes|
    ensures passes[k].finished <= passes[m].finished
    decreases m
  {
    if k < m {
      FinishOrder(passes, k, m - 1);
    }
  }

  /** As written, a pass skips every file not written since the previous
      pass ended. Two files that share a bare filename settle after the pass
      that compiled both: the next pass, if neither was rewritten, logs only
      skips and leaves the stash as it was. */
  lemma UnwrittenFilesSkippedAsWritten(env: Collaborators, stash: Stash, first: FileTime, p1: Pass, p2: Pass)
    requires forall i :: 0 <= i < |p2.files| ==> p2.files[i].mtime < p1.finished
    ensures var r := Watch(env, stash, [p1, p2], AtFinish, first);
            && r.stash == ScanPass(env, stash, first, p1.files).stash
            && forall i :: 0 <= i < |r.logs[1]| ==> r.logs[1][i] == Skipped
  {
    WatchPair(env, stash, p1, p2, AtFinish, first);
    OlderThanBaselineIsNoOp(env, ScanPass(env, stash, first, p1.files).stash, p1.finished, p2.files);
  }

  /** As written, among files that share a bare filename the slot ends up
      with whichever was written since the previous pass ended, wherever the
      iterator lists it: here the earlier-listed file was rewritten, the
      later-listed one was not, and the slot takes the rewritten file's
      hash. */
  lemma LastWrittenCollidingFileWinsAsWritten(env: Collaborators, stash: Stash, first: FileTime, p1: Pass, p2: Pass,
                                              g1: FileRecord, f2: FileRecord)
    requires p2.files == [g1, f2] && g1.name == f2.name
    requires g1.isRegular && g1.present && p1.finished <= g1.mtime
    requires f2.mtime < p1.finished
    ensures var r := Watch(env, stash, [p1, p2], AtFinish, first);
            && r.logs[1][1] == Skipped
            && g1.name in r.stash.entries
            && r.stash.entries[g1.name].hash == env.hash(g1.contents)
  {
    WatchPair(env, stash, p1, p2, AtFinish, first);
    PairPass(env, ScanPass(env, stash, first, p1.files).stash, p1.finished, g1, f2);
  }

  /** One instance of the lost edit, from an empty stash: the first pass
      stashes a file, the file is rewritten while that pass still runs, and
      the second pass skips it, so the stash keeps the hash of the old text. */
  lemma LostEditExample(env: Collaborators, p1: Pass, p2: Pass, visited: FileRecord, edited: FileRecord)
    requires Chronological([p1, p2])
    requires p1.files == [visited] && p2.files == [edited]
    requires visited.isRegular && visited.present && Epoch <= visited.mtime
    requires edited.name == visited.name && env.hash(edited.contents) != env.hash(visited.contents)
    requires p1.started <= edited.mtime < p1.finished
    ensures var r := WatchAsWritten(env, Empty, [p1, p2]);
            && r.logs[1] == [Skipped]
            && visited.name in r.stash.entries
            && r.stash.entries[visited.name].hash == env.hash(visited.contents) != env.hash(edited.contents)
  {
    var s1 := ScanPass(env, Empty, Epoch, [visited]).stash;
    assert WatchAsWritten(env, Empty, [p1, p2]) == WatchState(s1, p2.finished, [[Added(PathOf(visited))], [Skipped]]) by {
      WatchPair(env, Empty, p1, p2, AtFinish, Epoch);
      OneFilePass(env, Empty, Epoch, visited);
      OneFilePass(env, s1, p1.finished, edited);
    }
    assert visited.name in s1.entries && s1.entries[visited.name].hash == env.hash(visited.contents) by {
      OneFilePass(env, Empty, Epoch, visited);
    }
  }

  /** As the source is written, a file last written before both the epoch
      and the start of hot reload is skipped by every pass: the first pass
      compares it with the epoch and each later pass with a clock reading
      taken after the loop began. On libstdc++, where the epoch lies in the
      future, this is every shader that existed when hot reload started. */
  lemma ExistingShadersNeverLoadedAsWritten(env: Collaborators, stash: Stash, passes: seq<Pass>)
    requires Chronological(passes)
    ensures forall k, i ::
              (0 <= k < |passes| && 0 <= i < |passes[k].files| &&
               passes[k].files[i].mtime < Epoch && passes[k].files[i].mtime < passes[0].started) ==>
              WatchAsWritten(env, stash, passes).logs[k][i] == Skipped
  {
    forall k, i | 0 <= k < |passes| && 0 <= i < |passes[k].files| &&
                  passes[k].files[i].mtime < Epoch && passes[k].files[i].mtime < passes[0].started
      ensures WatchAsWritten(env, stash, passes).logs[k][i] == Skipped
    {
      WatchLog(env, stash, passes, AtFinish, Epoch, k);
      BaselineBefore(env, stash, passes, AtFinish, Epoch, k);
      if k > 0 {
        ClockOrder(passes, k - 1);
      }
      var before := Watch(env, stash, passes[..k], AtFinish, Epoch);
      PassLog(env, before.stash, before.baseline, passes[k].files);
    }
  }

  /** Concretely: a shader older than both clock readings of two passes
      before the epoch is logged as skipped twice and never reaches `get`. */
  lemma NeverLoadedExample(env: Collaborators, f: FileRecord)
    requires f.isRegular && f.present && f.mtime == -30
    ensures var r := WatchAsWritten(env, Empty, [Pass(-20, [f], -10), Pass(-5, [f], -1)]);
            r.logs == [[Skipped], [Skipped]] && Get(r.stash, f.name) == None
  {
    var p1, p2 := Pass(-20, [f], -10), Pass(-5, [f], -1);
    WatchPair(env, Empty, p1, p2, AtFinish, Epoch);
    OneFilePass(env, Empty, Epoch, f);
    OneFilePass(env, Empty, -10, f);
  }

  /** With the first baseline at the clock's minimum, the first pass skips a
      file exactly when it is not a regular file or is gone, whatever its
      time; with distinct filenames, each file it keeps is stashed with the
      hash of its contents. */
  lemma FirstPassInspectsEverythingCorrected(env: Collaborators, stash: Stash, p: Pass)
    ensures var r := WatchCorrected(env, stash, [p]);
            forall i :: 0 <= i < |p.files| ==> (r.logs[0][i] == Skipped <==> !(p.files[i].isRegular && p.files[i].present))
    ensures var r := WatchCorrected(env, stash, [p]);
            DistinctEligibleNames(p.files, MinFileTime) ==>
              forall i :: 0 <= i < |p.files| && p.files[i].isRegular && p.files[i].present ==>
                p.files[i].name in r.stash.entries && r.stash.entries[p.files[i].name].hash == env.hash(p.files[i].contents)
  {
    assert [p][..0] == [];
    assert Watch(env, stash, [], AtStart, MinFileTime) == WatchState(stash, MinFileTime, []);
    PassLog(env, stash, MinFileTime, p.files);
    ScanOutcome(env, stash, MinFileTime, p.files);
    if DistinctEligibleNames(p.files, MinFileTime) {
      forall i | 0 <= i < |p.files| && p.files[i].isRegular && p.files[i].present
        ensures LastEligible(p.files, MinFileTime, p.files[i].name) == Some(p.files[i])
      {
        LastEligibleOfDistinct(p.files, MinFileTime, i);
      }
    }
  }
}
